=== FILE: README.md ===
# PID controller sensor — a Dafny model

This project models the core of the `pid_controller` Home Assistant integration. That
core is two pieces:

- the discrete PID engine `PIDController` (custom_components/pid_controller/pidcontroller.py);
- the control step of the `PidController` sensor that drives it (custom_components/pid_controller/sensor.py).

The sensor step covers:

- resetting the engine when a reset entity changes;
- the enabled switch;
- bang-bang mode when all gains are zero;
- creating and synchronising the engine (gains, sample time, windup and set point);
- advancing the engine only when the source entity changes;
- clamping the output to a 0..100 control state.

The display side reports the state as a fraction (`raw_state`) and the width of the range (`units`).
`native_value` lays that fraction over `[minimum, maximum]`. It then rounds the result with floor,
ceil or round-half-even at a decimal precision.

Three modules:

- `PidEngine` (pid_engine.dfy): the engine as an immutable `Engine` record.
  - `Update` is one call of `update` with the clock passed in.
  - `Run` folds `Update` over a sequence of samples.
- `Rounding` (rounding.dfy): decimal rounding over reals.
  - `Scale(x, n)` multiplies by 10^n one factor of ten at a time.
  - A value is on the grid of precision `n` when `Scale(x, n)` is a whole number.
- `PidSensor` (pid_sensor.dfy): the sensor.
  - Each template's rendered value is an input (`Readings`, `Display`).
  - The triggering entity is an `Option<EntityId>`. `None` is the start-up call and every `update()` refresh (sensor.py:754-756).
  - `Step` is `_update_sensor`. `RunSteps` folds it over events.

`reset_pid` sets the engine's last time to 0 (pidcontroller.py:65), and the sensor's clock is
the wall clock in seconds since 1970. So the first computing update after any reset integrates the
error over the whole clock reading: for any error of ordinary size the accumulator lands on
windup or -windup, whatever it held before. This happens after every set-point change, every
reset-entity trigger, and on the first update of a new engine whose set point is not 0.
`UpdateAfterResetPidSaturates`, `SetPointChangeRestartsIntegral` and
`ScenarioWallClockSetPointMove` state it.

Numbers are mathematical reals and integers. Python's `round` is modelled as
round-half-even on the exact value.

## Model

| member | source | states |
|---|---|---|
| PidEngine.WindupClamp | custom_components/pid_controller/pidcontroller.py:79-82 | the accumulator is cut back to [-windup, windup]; it is left alone when inside, becomes -windup below and windup above |
| PidEngine.ClampIsNearest | custom_components/pid_controller/pidcontroller.py:79-82 | the clamped accumulator is the point of [-windup, windup] nearest to the unclamped sum |
| PidEngine.ClampMonotone | custom_components/pid_controller/pidcontroller.py:79-82 | clamping keeps the order of accumulators |
| PidEngine.NegativeWindupSnaps | custom_components/pid_controller/pidcontroller.py:79-82 | with a negative windup the check order makes the accumulator snap to -windup exactly when it is below -windup, and to windup otherwise |
| PidEngine.Reset | custom_components/pid_controller/pidcontroller.py:42-57 | reset zeroes set point, outputs, terms and last error, restores windup 20, and keeps gains, sample time and both clocks |
| PidEngine.New | custom_components/pid_controller/pidcontroller.py:17-40 | a new engine holds the given gains, sample time 0, both clocks at the given time, set point 0, windup 20, and zero p, i, d, output, terms and last error |
| PidEngine.ResetPid | custom_components/pid_controller/pidcontroller.py:59-65 | reset_pid clears the three terms, the last error and the last time, and keeps the settings, the outputs and the current time |
| PidEngine.ResetPidIdempotent | custom_components/pid_controller/pidcontroller.py:59-65 | resetting the running terms twice is the same as once |
| PidEngine.ResetIdempotent | custom_components/pid_controller/pidcontroller.py:42-57 | a full reset twice is the same as once |
| PidEngine.Update | custom_components/pid_controller/pidcontroller.py:67-96 | an update always moves the clock and never the settings. Below the sample time it changes nothing else. Otherwise the output is kp·error + ki·accumulator + kd·slope, the slope times the elapsed time is the change of error, and the accumulator is the windup clamp of its previous value plus error·elapsed time: exact while that fits, and inside [-windup, windup] whenever the windup is non-negative |
| PidEngine.SaturatedUpdateHoldsGuard | custom_components/pid_controller/pidcontroller.py:77-82 | with a non-negative windup, an update that would carry the accumulator past the guard leaves it exactly at windup (or -windup), so the integral contribution is ki times that |
| PidEngine.NegativeWindupUpdateSnaps | custom_components/pid_controller/pidcontroller.py:77-82 | with a negative windup every computing update leaves the accumulator at windup or -windup; at -windup exactly when the new sum is below -windup |
| PidEngine.SetKp | custom_components/pid_controller/pidcontroller.py:103-105 | the proportional gain setter changes that gain and nothing else |
| PidEngine.SetKi | custom_components/pid_controller/pidcontroller.py:112-114 | the integral gain setter changes that gain and nothing else |
| PidEngine.SetKd | custom_components/pid_controller/pidcontroller.py:122-124 | the derivative gain setter changes that gain and nothing else |
| PidEngine.SetSetPoint | custom_components/pid_controller/pidcontroller.py:131-133 | the set point setter changes the set point and nothing else |
| PidEngine.SetWindup | custom_components/pid_controller/pidcontroller.py:148-150 | the windup setter changes the windup only; the guard survives when the accumulator fits the new windup |
| PidEngine.SetSampleTime | custom_components/pid_controller/pidcontroller.py:160-162 | the sample time setter changes the sample time only |
| PidEngine.SettersRoundTrip | custom_components/pid_controller/pidcontroller.py:98-162 | writing back a property's own value changes nothing, and the last of two writes wins |
| PidEngine.UpdateAfterResetPid | custom_components/pid_controller/pidcontroller.py:59-96 | after reset_pid the next computing update drops the old accumulator, integrates the error over the whole span since time 0 and takes its slope over that span |
| PidEngine.UpdateAfterResetPidSaturates | custom_components/pid_controller/pidcontroller.py:59-82 | with a non-negative windup, the first computing update after reset_pid leaves the accumulator at windup (or -windup), and the integral contribution at ki times that, whenever the error times the clock reading passes the guard |
| PidEngine.Run | custom_components/pid_controller/pidcontroller.py:67-96 | a run of updates keeps the settings and leaves the clock at the last sample's time |
| PidEngine.RunPreservesWindupBound | custom_components/pid_controller/pidcontroller.py:78-82 | once the accumulator is inside the windup, it stays inside through any run of updates |
| PidEngine.GatedRunOnlyMovesClock | custom_components/pid_controller/pidcontroller.py:75 | updates that all fall within one sample time of the last computation change nothing but the clock |
| PidEngine.IntegralIsRiemannSum | custom_components/pid_controller/pidcontroller.py:77-90 | while nothing is clamped, the accumulator after a paced run is the right-endpoint Riemann sum of the error over the sample times |
| PidEngine.NonNegativeErrorRaisesIntegral | custom_components/pid_controller/pidcontroller.py:77-82 | for an engine whose accumulator is inside a non-negative windup, and samples that each arrive no earlier than max(sample time, 0) after the previous computation, feedback at or below the set point never lowers the accumulator and never lifts it past the windup |
| PidEngine.ScenarioStart | custom_components/pid_controller/pidcontroller.py:17-57 | a new proportional controller at set point 50 starts with output 0 |
| PidEngine.ScenarioFirstUpdate | custom_components/pid_controller/pidcontroller.py:67-96 | with kp 1, set point 50 and feedback 30 the first update outputs 20 |
| PidEngine.ScenarioSecondUpdate | custom_components/pid_controller/pidcontroller.py:67-96 | adding ki 0.1, one second later the integral contributes 2 and the output is 22 |
| Rounding.ScaleIsMultiplication | custom_components/pid_controller/sensor.py:240 | scaling by n decimal places is multiplication by pow(10, n) |
| Rounding.FloorInt | custom_components/pid_controller/sensor.py:243 | floor gives the whole number at or below its argument and within one of it |
| Rounding.CeilInt | custom_components/pid_controller/sensor.py:245 | ceil gives the whole number at or above its argument and within one of it |
| Rounding.RoundHalfEvenInt | custom_components/pid_controller/sensor.py:247 | round gives a whole number within one half, and the even one on a tie |
| Rounding.RoundHalfEvenIsNearest | custom_components/pid_controller/sensor.py:247 | no whole number is nearer than round's result |
| Rounding.FloorTo | custom_components/pid_controller/sensor.py:242-243 | floor at precision n gives a grid value at or below the input and less than one step below it |
| Rounding.CeilTo | custom_components/pid_controller/sensor.py:244-245 | ceil at precision n gives a grid value at or above the input and less than one step above it |
| Rounding.RoundTo | custom_components/pid_controller/sensor.py:246-247 | round at precision n gives a grid value within half a step |
| Rounding.FloorToIsGreatest | custom_components/pid_controller/sensor.py:242-243 | every grid value at or below the input is at or below the floor |
| Rounding.CeilToIsLeast | custom_components/pid_controller/sensor.py:244-245 | every grid value at or above the input is at or above the ceil |
| Rounding.RoundToIsNearest | custom_components/pid_controller/sensor.py:246-247 | no grid value is nearer to the input than the rounded one |
| Rounding.RoundAt | custom_components/pid_controller/sensor.py:240-247 | the selected mode gives a grid value on the side and within the distance that mode promises |
| Rounding.RoundAtFixesGridPoints | custom_components/pid_controller/sensor.py:240-247 | a value already on the grid is left unchanged by every mode |
| Rounding.RoundAtIdempotent | custom_components/pid_controller/sensor.py:240-247 | rounding a rounded value again changes nothing |
| Rounding.RoundAtStaysBetweenGridPoints | custom_components/pid_controller/sensor.py:240-247 | rounding never leaves an interval whose ends are on the grid |
| Rounding.TruncInt | custom_components/pid_controller/sensor.py:249-250 | int() truncates toward zero |
| Rounding.TruncOfIntegralIsIdentity | custom_components/pid_controller/sensor.py:249-250 | int() of a whole number is that number |
| PidSensor.Proportional | custom_components/pid_controller/sensor.py:414-437 | the proportional gain handed on is the configured one, negated when inverted, and zero exactly when the configured one is |
| PidSensor.Integral | custom_components/pid_controller/sensor.py:439-460 | the integral gain handed on is the configured one, negated when inverted, and zero exactly when the configured one is |
| PidSensor.Derivative | custom_components/pid_controller/sensor.py:462-483 | the derivative gain handed on is the configured one, negated when inverted, and zero exactly when the configured one is |
| PidSensor.IsBangBang | custom_components/pid_controller/sensor.py:768 | bang-bang mode is chosen exactly when all three configured gains are zero |
| PidSensor.ResetOnTrigger | custom_components/pid_controller/sensor.py:759-760 | a trigger in the reset list resets an existing engine; any other trigger leaves the sensor unchanged; the state and the set point are kept either way |
| PidSensor.EffectiveGain | custom_components/pid_controller/sensor.py:432-433 | an inverted gain is the negation of the configured one; otherwise it is the configured one |
| PidSensor.InvertIsInvolution | custom_components/pid_controller/sensor.py:432-479 | inverting twice restores the gain, and a gain is zero exactly when its inversion is |
| PidSensor.ModeIndependentOfInvert | custom_components/pid_controller/sensor.py:768 | bang-bang mode is chosen exactly when all three configured gains are zero, whatever invert says |
| PidSensor.BangBangState | custom_components/pid_controller/sensor.py:772-774 | bang-bang output is 0 or 100; it is 100 exactly when "source below set point" differs from invert |
| PidSensor.BangBangInvertSwaps | custom_components/pid_controller/sensor.py:772-774 | inverting swaps the two bang-bang levels |
| PidSensor.ClampPercent | custom_components/pid_controller/sensor.py:805 | the control state is the output cut to [0, 100], unchanged when inside |
| PidSensor.ResetSensorPid | custom_components/pid_controller/sensor.py:750-752 | the sensor's reset resets the engine when it exists and keeps the state |
| PidSensor.Prepare | custom_components/pid_controller/sensor.py:776-798 | the engine ends up holding the step's gains, sample time, windup and set point. An existing engine keeps its running state unless the set point moved, in which case the terms, last error and last time are cleared; p, i, d, the output and the clock survive either way. A new engine starts with zero terms, p/i/d, output and last error, and its last time is now, or 0 when the first set point is non-zero |
| PidSensor.Step | custom_components/pid_controller/sensor.py:758-806 | outside PID mode the engine is exactly the one left by the requested reset (none stays none), and disabled steps keep the state. Bang-bang steps act on the source entity only. PID steps leave an engine carrying the step's settings, and the state is its output clamped to [0, 100]. The source entity's step stores exactly one update of the prepared engine; any other trigger stores the prepared engine without an update |
| PidSensor.SetPointChangeRestartsIntegral | custom_components/pid_controller/sensor.py:796-801 | after a set-point change, the source update's accumulator is the clamped error times the span since time 0, not the old accumulator plus the error since the last computation; with a non-negative windup it sits at the guard whenever that product passes it |
| PidSensor.ScenarioWallClockSetPointMove | custom_components/pid_controller/sensor.py:796-801 | at wall-clock time 1700000001, a set point moved from 20 to 21 with source 20.5 puts an accumulator of 3 at the guard 20 (integral 2), where the same update without the reset gives 3.5 |
| PidSensor.NonSourceStepIsIdempotent | custom_components/pid_controller/sensor.py:758-806 | a step from an entity that is neither source nor reset entity, repeated with the same readings, changes nothing more |
| PidSensor.RunKeepsStateInPercentRange | custom_components/pid_controller/sensor.py:758-806 | after any sequence of steps the control state is still within [0, 100] |
| PidSensor.ParseRoundMode | custom_components/pid_controller/sensor.py:242-247 | "floor" selects floor, "ceil" selects ceil, any other text selects round |
| PidSensor.Units | custom_components/pid_controller/sensor.py:292-294 | minimum plus units is the maximum |
| PidSensor.RawState | custom_components/pid_controller/sensor.py:296-305 | raw_state is the control state divided by 100, and a fraction in [0, 1] for a 0..100 state |
| PidSensor.Unrounded | custom_components/pid_controller/sensor.py:228-238 | the unrounded value is the minimum when minimum exceeds maximum, and otherwise lies in [minimum, maximum] |
| PidSensor.UnroundedInverse | custom_components/pid_controller/sensor.py:228-238 | on a non-empty range the control state is recovered from the unrounded value |
| PidSensor.UnroundedMonotone | custom_components/pid_controller/sensor.py:228-238 | a larger control state never gives a smaller unrounded value |
| PidSensor.NativeValue | custom_components/pid_controller/sensor.py:221-252 | disabled shows the minimum. Otherwise it shows a value on the precision grid, related to the unrounded value as the round mode promises |
| PidSensor.NativeValueWithinRange | custom_components/pid_controller/sensor.py:221-252 | when minimum <= maximum and both range ends are on the display grid, a 0..100 state is shown within [minimum, maximum] |
| PidSensor.DisplayedValueAlwaysInRange | custom_components/pid_controller/sensor.py:221-252 | when minimum <= maximum and both ends are on the display grid, every state reachable from the initial sensor is shown within [minimum, maximum] |
| PidSensor.StepAsWritten | custom_components/pid_controller/sensor.py:758-806 | as written, a step raises exactly in PID mode, before changing the state: TypeError without an engine, AttributeError with one |
| PidSensor.AsWrittenAgreesOutsidePidMode | custom_components/pid_controller/sensor.py:758-775 | outside PID mode the code as written completes and agrees with Step |
| PidSensor.AsWrittenNeverCreatesEngine | custom_components/pid_controller/sensor.py:780-781 | as written, no run of events ever gives the sensor an engine |
| PidSensor.AsWrittenLatentAttributeError | custom_components/pid_controller/sensor.py:782-788 | as written, any PID-mode step on a sensor that already holds an engine raises AttributeError and keeps the state and the engine (reset if requested) |
| PidSensor.AsWrittenFreshEngineFails | custom_components/pid_controller/sensor.py:782-788 | as written, a sensor holding a freshly constructed proportional engine raises AttributeError on its next PID-mode step |
| PidSensor.AsWrittenPidStepFails | custom_components/pid_controller/sensor.py:780-781 | for a proportional controller at 18 against set point 20, the code as written raises, where Step reaches state 2 |

## Left out

- Template rendering, its error handling and its fallbacks (defaults on render or parse failure) are left out. Each template's rendered value is an input of the step, and the source's defaults are not modelled.
- Lower-casing of the round template's text is left out. `ParseRoundMode` receives the text already lower-cased.
- `sample_time` and `windup` reach the step already truncated to integers, as the sensor's properties return them; so does `precision` (sensor.py:600), an `int` in `Display`. The `int(float(...))` parsing is not modelled.
- Entity lifecycle, state-change subscriptions, `async_added_to_hass`, the unique id, the icon, attributes and the integration's services in `__init__.py` are left out. They are I/O with Home Assistant.
- Steps are treated as atomic and applied one after the other. Home Assistant runs the synchronous `update()` refresh (sensor.py:754-756) in an executor thread, while state-change events run `_update_sensor(entity)` on the event loop (sensor.py:813-816). The interleaving of two such steps is not modelled.
- `time.time()` is left out. The engine's clock is the `now` argument of `Update` and `Step`.
- A step reads the clock once. In the source, creating the engine (pidcontroller.py:27) and its first update (pidcontroller.py:71) are two `time.time()` reads, so the first update sees a tiny positive elapsed time, not 0. With set point 0 and a non-zero derivative gain, the source's first derivative term is therefore huge where the model's is 0. Example: kp 1, kd 1, sample time 0, source -10. The source saturates the state to 100; the model gives 10.
- `available` always returns true in the source. The `STATE_UNAVAILABLE` branch of `native_value` and `raw_state` is therefore not modelled.
- IEEE-754 floating point is not modelled: reals are exact. Python's `round` on a double that is only nearly a tie, and float errors in `floor(x * 10**n) / 10**n`, can differ from the exact results proved here.
- The failure branch of `float(self._sensor_state)` is left out. The state is always a number in this model.
- Nothing beyond what pidcontroller.py does is modelled for the engine: its output is not clamped, there is no conditional integration and no epsilon. The ki gain scales the accumulator after the windup clamp, so windup bounds the unscaled accumulator.
- No mapping onto [minimum, maximum] is modelled for `raw_state`: sensor.py:296-305 returns the control state divided by 100.
- Writing an engine field only when it differs is modelled as writing it unconditionally. Both give the same engine.

## Findings

| source | as written | input that shows it | evidently intended | confidence | as-written member | corrected member |
|---|---|---|---|---|---|---|
| custom_components/pid_controller/sensor.py:780-781 | the engine is constructed with a `logger=` keyword that the constructor (pidcontroller.py:17) does not accept, so a TypeError is raised and no engine is ever stored | an enabled sensor with proportional gain 1, source 18, set point 20, on its first source update | construct the engine from the three gains and the current time | high (not executed) | PidSensor.StepAsWritten | PidSensor.Step |
| custom_components/pid_controller/sensor.py:783-788 | an existing engine's gains are read and written as `kp`, `ki`, `kd`, but the engine exposes them as `kpg`, `kig`, `kdg` (pidcontroller.py:98-124), so an AttributeError is raised | latent: as written line 781 always raises first, so no sensor ever holds an engine (AsWrittenNeverCreatesEngine). Once line 781 is fixed, any PID-mode step on a sensor holding an engine raises, for instance one holding a fresh proportional engine (AsWrittenFreshEngineFails) | write the effective gains into the engine | high (not executed) | PidSensor.StepAsWritten | PidSensor.Prepare |

=== FILE: pid_engine.dfy ===
/**
  The PID computation engine of the controller (custom_components/pid_controller/pidcontroller.py).

  The engine is an immutable record; every mutator of the Python class becomes a
  pure function from the old record to the new one. The clock is never read:
  every operation that records a time takes it as an explicit parameter.
  Python floats are modelled as `real`.
 */
module PidEngine {

  /** Windup guard installed by `reset` (the constructor calls `reset`). */
  const DefaultWindup: real := 20.0

  /** The engine's full state, one field per attribute of the Python object. */
  datatype Engine = Engine(
    // weighted terms of the last computing update: p = p_term, i = ki*i_term, d = kd*d_term
    p: real,
    i: real,
    d: real,
    // gains
    kp: real,
    ki: real,
    kd: real,
    sampleTime: real,
    currentTime: real,
    lastTime: real,
    // raw terms: p_term = kp*error, i_term is the unscaled error accumulator, d_term the error slope
    pTerm: real,
    iTerm: real,
    dTerm: real,
    output: real,
    windup: real,
    lastError: real,
    setPoint: real
  )

  /** One feedback reading together with the time at which `update` is called. */
  datatype Sample = Sample(feedback: real, time: real)

  /** The configuration a caller sets; `update`, `reset_pid` and the run never touch it. */
  predicate SameSettings(a: Engine, b: Engine)
  {
    a.kp == b.kp && a.ki == b.ki && a.kd == b.kd
    && a.setPoint == b.setPoint && a.windup == b.windup && a.sampleTime == b.sampleTime
  }

  /** The anti-windup invariant: a non-negative guard and an accumulator inside it. */
  predicate Guarded(e: Engine)
  {
    0.0 <= e.windup && -e.windup <= e.iTerm <= e.windup
  }

  /** The sample-time gate of `update`: does a call at time `now` recompute? */
  predicate Computes(e: Engine, now: real)
  {
    now - e.lastTime >= e.sampleTime
  }

  function Abs(x: real): real
  {
    if x < 0.0 then -x else x
  }

  /**
    The clamp `update` applies to the unscaled accumulator, with the two
    comparisons in the order the source makes them. For a non-negative guard it
    is the projection onto [-w, w]; for a negative one see NegativeWindupSnaps.
   */
  function WindupClamp(acc: real, w: real): (r: real)
    ensures 0.0 <= w ==> -w <= r <= w
    ensures 0.0 <= w && -w <= acc <= w ==> r == acc
    ensures 0.0 <= w && acc < -w ==> r == -w
    ensures 0.0 <= w && w < acc ==> r == w
  {
    if acc < -w then -w
    else if acc > w then w
    else acc
  }

  /** For a non-negative guard the clamp returns the point of [-w, w] nearest to the accumulator. */
  lemma ClampIsNearest(acc: real, w: real, y: real)
    requires 0.0 <= w
    requires -w <= y <= w
    ensures Abs(WindupClamp(acc, w) - acc) <= Abs(y - acc)
  {
  }

  /** The clamp is monotone, so it never reverses the direction in which the accumulator moves. */
  lemma ClampMonotone(a: real, b: real, w: real)
    requires 0.0 <= w
    requires a <= b
    ensures WindupClamp(a, w) <= WindupClamp(b, w)
  {
  }

  /**
    With a negative guard the two comparisons of the source no longer describe an
    interval: every accumulator is replaced by one of the two guard values.
   */
  lemma NegativeWindupSnaps(acc: real, w: real)
    requires w < 0.0
    ensures WindupClamp(acc, w) == -w || WindupClamp(acc, w) == w
    ensures WindupClamp(acc, w) == -w <==> acc < -w
  {
  }

  /** `reset`: clears the set point, the terms and the output and re-installs the default windup guard. */
  function Reset(e: Engine): (r: Engine)
    ensures r.setPoint == 0.0 && r.windup == DefaultWindup
    ensures r.p == 0.0 && r.i == 0.0 && r.d == 0.0 && r.output == 0.0
    ensures r.pTerm == 0.0 && r.iTerm == 0.0 && r.dTerm == 0.0 && r.lastError == 0.0
    ensures r.kp == e.kp && r.ki == e.ki && r.kd == e.kd && r.sampleTime == e.sampleTime
    ensures r.lastTime == e.lastTime && r.currentTime == e.currentTime
    ensures Guarded(r)
  {
    e.(setPoint := 0.0, p := 0.0, i := 0.0, d := 0.0,
       pTerm := 0.0, iTerm := 0.0, dTerm := 0.0, lastError := 0.0,
       windup := DefaultWindup, output := 0.0)
  }

  /**
    The constructor: gains from the arguments, clock fields at `now`, a zero
    sample time, then `reset`.
   */
  function New(kp: real, ki: real, kd: real, now: real): (r: Engine)
    ensures r.kp == kp && r.ki == ki && r.kd == kd
    ensures r.sampleTime == 0.0
    ensures r.currentTime == now && r.lastTime == now
    ensures r.setPoint == 0.0 && r.windup == DefaultWindup
    ensures r.output == 0.0 && r.iTerm == 0.0 && r.lastError == 0.0
    ensures r.p == 0.0 && r.i == 0.0 && r.d == 0.0 && r.pTerm == 0.0 && r.dTerm == 0.0
    ensures Guarded(r)
  {
    Reset(Engine(
      p := 0.0, i := 0.0, d := 0.0,
      kp := kp, ki := ki, kd := kd,
      sampleTime := 0.0, currentTime := now, lastTime := now,
      pTerm := 0.0, iTerm := 0.0, dTerm := 0.0,
      output := 0.0, windup := 0.0, lastError := 0.0, setPoint := 0.0))
  }

  /**
    `reset_pid`: forgets the running terms, the last error and the last time;
    the weighted terms p/i/d, the output and all settings survive.
   */
  function ResetPid(e: Engine): (r: Engine)
    ensures r.pTerm == 0.0 && r.iTerm == 0.0 && r.dTerm == 0.0
    ensures r.lastError == 0.0 && r.lastTime == 0.0
    ensures SameSettings(e, r)
    ensures r.p == e.p && r.i == e.i && r.d == e.d && r.output == e.output
    ensures r.currentTime == e.currentTime
    ensures Guarded(e) ==> Guarded(r)
  {
    e.(pTerm := 0.0, iTerm := 0.0, dTerm := 0.0, lastError := 0.0, lastTime := 0.0)
  }

  lemma ResetPidIdempotent(e: Engine)
    ensures ResetPid(ResetPid(e)) == ResetPid(e)
  {
  }

  lemma ResetIdempotent(e: Engine)
    ensures Reset(Reset(e)) == Reset(e)
  {
  }

  /**
    `update`: always records `now`; recomputes only when the time since the
    last computing update reaches the sample time. The accumulator gains the
    raw `error * delta_time` and is clamped before `ki` is applied; the output
    is the unclamped sum of the three weighted terms.
   */
  function Update(e: Engine, feedback: real, now: real): (r: Engine)
    ensures r.currentTime == now
    ensures SameSettings(e, r)
    // the gate: a call that does not compute only moves the clock
    ensures !Computes(e, now) ==> r == e.(currentTime := now)
    ensures Computes(e, now) ==>
      && r.pTerm == e.kp * (e.setPoint - feedback)
      && r.p == r.pTerm && r.i == e.ki * r.iTerm && r.d == e.kd * r.dTerm
      && r.output == r.p + r.i + r.d
    ensures Computes(e, now) ==> r.lastTime == now && r.lastError == e.setPoint - feedback
    // derivative: the slope of the error since the last computing update, or exactly zero
    ensures Computes(e, now) && now - e.lastTime > 0.0 ==>
      r.dTerm * (now - e.lastTime) == (e.setPoint - feedback) - e.lastError
    ensures Computes(e, now) && now - e.lastTime <= 0.0 ==> r.dTerm == 0.0
    // integral: the unscaled accumulator is the clamped sum, so it stays inside the guard
    // and is exact while it fits
    ensures Computes(e, now) ==>
      r.iTerm == WindupClamp(e.iTerm + (e.setPoint - feedback) * (now - e.lastTime), e.windup)
    ensures Computes(e, now) && 0.0 <= e.windup ==> -e.windup <= r.iTerm <= e.windup
    ensures Computes(e, now) && 0.0 <= e.windup
            && Abs(e.iTerm + (e.setPoint - feedback) * (now - e.lastTime)) <= e.windup ==>
      r.iTerm == e.iTerm + (e.setPoint - feedback) * (now - e.lastTime)
    ensures Guarded(e) ==> Guarded(r)
  {
    var error := e.setPoint - feedback;
    var deltaTime := now - e.lastTime;
    var deltaError := error - e.lastError;
    if deltaTime >= e.sampleTime then
      var pTerm := e.kp * error;
      var iTerm := WindupClamp(e.iTerm + error * deltaTime, e.windup);
      var dTerm := if deltaTime > 0.0 then deltaError / deltaTime else 0.0;
      e.(currentTime := now, pTerm := pTerm, iTerm := iTerm, dTerm := dTerm,
         lastTime := now, lastError := error,
         p := pTerm, i := e.ki * iTerm, d := e.kd * dTerm,
         output := pTerm + e.ki * iTerm + e.kd * dTerm)
    else
      e.(currentTime := now)
  }

  /**
    An update whose error would carry the accumulator past the guard leaves it
    exactly at the guard, so the integral contribution is `ki` times the windup.
   */
  lemma SaturatedUpdateHoldsGuard(e: Engine, feedback: real, now: real)
    requires Computes(e, now) && 0.0 <= e.windup
    ensures e.iTerm + (e.setPoint - feedback) * (now - e.lastTime) > e.windup ==>
      Update(e, feedback, now).iTerm == e.windup && Update(e, feedback, now).i == e.ki * e.windup
    ensures e.iTerm + (e.setPoint - feedback) * (now - e.lastTime) < -e.windup ==>
      Update(e, feedback, now).iTerm == -e.windup && Update(e, feedback, now).i == e.ki * -e.windup
  {
  }

  /**
    With a negative windup (the sensor passes any integer on) every computing
    update leaves the accumulator at one of the two guard values.
   */
  lemma NegativeWindupUpdateSnaps(e: Engine, feedback: real, now: real)
    requires Computes(e, now) && e.windup < 0.0
    ensures Update(e, feedback, now).iTerm == e.windup || Update(e, feedback, now).iTerm == -e.windup
    ensures Update(e, feedback, now).iTerm == -e.windup
            <==> e.iTerm + (e.setPoint - feedback) * (now - e.lastTime) < -e.windup
  {
  }

  // The property setters. Each writes its own field and nothing else.

  function SetKp(e: Engine, v: real): (r: Engine)
    ensures r.kp == v && r.(kp := e.kp) == e
  {
    e.(kp := v)
  }

  function SetKi(e: Engine, v: real): (r: Engine)
    ensures r.ki == v && r.(ki := e.ki) == e
  {
    e.(ki := v)
  }

  function SetKd(e: Engine, v: real): (r: Engine)
    ensures r.kd == v && r.(kd := e.kd) == e
  {
    e.(kd := v)
  }

  function SetSetPoint(e: Engine, v: real): (r: Engine)
    ensures r.setPoint == v && r.(setPoint := e.setPoint) == e
  {
    e.(setPoint := v)
  }

  function SetWindup(e: Engine, v: real): (r: Engine)
    ensures r.windup == v && r.(windup := e.windup) == e
    ensures Guarded(e) && Abs(e.iTerm) <= v ==> Guarded(r)
  {
    e.(windup := v)
  }

  function SetSampleTime(e: Engine, v: real): (r: Engine)
    ensures r.sampleTime == v && r.(sampleTime := e.sampleTime) == e
    ensures Guarded(e) ==> Guarded(r)
  {
    e.(sampleTime := v)
  }

  /** Writing back what a getter returned changes nothing; of two writes only the last is seen. */
  lemma SettersRoundTrip(e: Engine, a: real, b: real)
    ensures SetKp(e, e.kp) == e && SetKp(SetKp(e, a), b) == SetKp(e, b)
    ensures SetKi(e, e.ki) == e && SetKi(SetKi(e, a), b) == SetKi(e, b)
    ensures SetKd(e, e.kd) == e && SetKd(SetKd(e, a), b) == SetKd(e, b)
    ensures SetSetPoint(e, e.setPoint) == e && SetSetPoint(SetSetPoint(e, a), b) == SetSetPoint(e, b)
    ensures SetWindup(e, e.windup) == e && SetWindup(SetWindup(e, a), b) == SetWindup(e, b)
    ensures SetSampleTime(e, e.sampleTime) == e
            && SetSampleTime(SetSampleTime(e, a), b) == SetSampleTime(e, b)
  {
  }

  /**
    After `reset_pid` the last time is 0, so the next computing update measures
    its span from time 0, not from the previous computation: the old
    accumulator is dropped and the new one is the error times the whole clock
    reading, clamped to the guard.
   */
  lemma UpdateAfterResetPid(e: Engine, feedback: real, now: real)
    requires now >= e.sampleTime
    ensures Update(ResetPid(e), feedback, now).iTerm
            == WindupClamp((e.setPoint - feedback) * now, e.windup)
    ensures now > 0.0 ==>
      Update(ResetPid(e), feedback, now).dTerm * now == e.setPoint - feedback
  {
  }

  /**
    Under a wall clock, whose reading is large, the first computing update after
    `reset_pid` saturates the accumulator: an error whose product with the clock
    reading exceeds the guard leaves the accumulator at the guard, whatever it
    held before the reset.
   */
  lemma UpdateAfterResetPidSaturates(e: Engine, feedback: real, now: real)
    requires 0.0 <= e.windup && now >= e.sampleTime
    ensures (e.setPoint - feedback) * now > e.windup ==>
      Update(ResetPid(e), feedback, now).iTerm == e.windup
      && Update(ResetPid(e), feedback, now).i == e.ki * e.windup
    ensures (e.setPoint - feedback) * now < -e.windup ==>
      Update(ResetPid(e), feedback, now).iTerm == -e.windup
      && Update(ResetPid(e), feedback, now).i == e.ki * -e.windup
  {
    UpdateAfterResetPid(e, feedback, now);
  }

  // ---------------------------------------------------------------------------
  // Sequences of updates

  /** Feeds the samples to `update` one after the other. */
  function Run(e: Engine, samples: seq<Sample>): (r: Engine)
    ensures SameSettings(e, r)
    ensures |samples| > 0 ==> r.currentTime == samples[|samples| - 1].time
    ensures |samples| == 0 ==> r == e
    decreases |samples|
  {
    if |samples| == 0 then e
    else Run(Update(e, samples[0].feedback, samples[0].time), samples[1..])
  }

  /** Whatever the feedback and the timing, the accumulator never leaves the guard. */
  lemma {:induction false} RunPreservesWindupBound(e: Engine, samples: seq<Sample>)
    requires Guarded(e)
    ensures Guarded(Run(e, samples))
    decreases |samples|
  {
    if |samples| > 0 {
      RunPreservesWindupBound(Update(e, samples[0].feedback, samples[0].time), samples[1..]);
    }
  }

  /**
    Calls that all come before the sample time has elapsed leave every term,
    the output, the last error and the last time alone: only the clock moves.
   */
  lemma {:induction false} GatedRunOnlyMovesClock(e: Engine, samples: seq<Sample>)
    requires |samples| > 0
    requires forall k :: 0 <= k < |samples| ==> samples[k].time - e.lastTime < e.sampleTime
    ensures Run(e, samples) == e.(currentTime := samples[|samples| - 1].time)
    decreases |samples|
  {
    var e1 := Update(e, samples[0].feedback, samples[0].time);
    if |samples| > 1 {
      assert e1.lastTime == e.lastTime && e1.sampleTime == e.sampleTime;
      forall k | 0 <= k < |samples[1..]|
        ensures samples[1..][k].time - e1.lastTime < e1.sampleTime
      {
        assert samples[1..][k] == samples[k + 1];
      }
      GatedRunOnlyMovesClock(e1, samples[1..]);
      assert e1.(currentTime := samples[|samples| - 1].time) == e.(currentTime := samples[|samples| - 1].time);
    }
  }

  /** Every sample arrives at least one sample time after the previous one, starting from `t0`. */
  predicate Paced(t0: real, sampleTime: real, samples: seq<Sample>)
    decreases |samples|
  {
    |samples| == 0
    || (samples[0].time - t0 >= sampleTime && Paced(samples[0].time, sampleTime, samples[1..]))
  }

  /** Right-endpoint Riemann sum of the error against the set point `sp`, from time `t0`. */
  function ErrorIntegral(t0: real, sp: real, samples: seq<Sample>): real
    decreases |samples|
  {
    if |samples| == 0 then 0.0
    else (sp - samples[0].feedback) * (samples[0].time - t0)
         + ErrorIntegral(samples[0].time, sp, samples[1..])
  }

  /** Every partial sum of the accumulator, starting at `acc`, stays within [-w, w]. */
  predicate NeverClamped(acc: real, t0: real, sp: real, w: real, samples: seq<Sample>)
    decreases |samples|
  {
    |samples| == 0
    || (var next := acc + (sp - samples[0].feedback) * (samples[0].time - t0);
        Abs(next) <= w && NeverClamped(next, samples[0].time, sp, w, samples[1..]))
  }

  /**
    As long as the guard is never hit, the unscaled accumulator is exactly the
    Riemann sum of the error over the elapsed time.
   */
  lemma {:induction false} IntegralIsRiemannSum(e: Engine, samples: seq<Sample>)
    requires 0.0 <= e.windup
    requires Paced(e.lastTime, e.sampleTime, samples)
    requires NeverClamped(e.iTerm, e.lastTime, e.setPoint, e.windup, samples)
    ensures Run(e, samples).iTerm == e.iTerm + ErrorIntegral(e.lastTime, e.setPoint, samples)
    decreases |samples|
  {
    if |samples| > 0 {
      var step := (e.setPoint - samples[0].feedback) * (samples[0].time - e.lastTime);
      assert ErrorIntegral(e.lastTime, e.setPoint, samples)
             == step + ErrorIntegral(samples[0].time, e.setPoint, samples[1..]);
      var e1 := UnclampedStep(e, samples);
      IntegralIsRiemannSum(e1, samples[1..]);
      assert Run(e, samples) == Run(e1, samples[1..]);
    }
  }

  /** One step of a paced, unclamped run: the accumulator grows by exactly the error area. */
  lemma UnclampedStep(e: Engine, samples: seq<Sample>) returns (e1: Engine)
    requires 0.0 <= e.windup && |samples| > 0
    requires Paced(e.lastTime, e.sampleTime, samples)
    requires NeverClamped(e.iTerm, e.lastTime, e.setPoint, e.windup, samples)
    ensures e1 == Update(e, samples[0].feedback, samples[0].time)
    ensures e1.iTerm == e.iTerm + (e.setPoint - samples[0].feedback) * (samples[0].time - e.lastTime)
    ensures SameSettings(e, e1) && e1.lastTime == samples[0].time
    ensures Paced(e1.lastTime, e1.sampleTime, samples[1..])
    ensures NeverClamped(e1.iTerm, e1.lastTime, e1.setPoint, e1.windup, samples[1..])
  {
    var next := e.iTerm + (e.setPoint - samples[0].feedback) * (samples[0].time - e.lastTime);
    PacedHead(e.lastTime, e.sampleTime, samples);
    NeverClampedHead(e.iTerm, e.lastTime, e.setPoint, e.windup, samples);
    assert Computes(e, samples[0].time);
    e1 := Update(e, samples[0].feedback, samples[0].time);
    assert e1.iTerm == next;
    assert e1.lastTime == samples[0].time;
    assert e1.setPoint == e.setPoint && e1.windup == e.windup && e1.sampleTime == e.sampleTime;
  }

  lemma PacedHead(t0: real, sampleTime: real, samples: seq<Sample>)
    requires |samples| > 0 && Paced(t0, sampleTime, samples)
    ensures samples[0].time - t0 >= sampleTime
    ensures Paced(samples[0].time, sampleTime, samples[1..])
  {
  }

  lemma NeverClampedHead(acc: real, t0: real, sp: real, w: real, samples: seq<Sample>)
    requires |samples| > 0 && NeverClamped(acc, t0, sp, w, samples)
    ensures Abs(acc + (sp - samples[0].feedback) * (samples[0].time - t0)) <= w
    ensures NeverClamped(acc + (sp - samples[0].feedback) * (samples[0].time - t0), samples[0].time, sp, w, samples[1..])
  {
  }

  /**
    Constant-sign error pushes the accumulator one way only: with feedback at
    or below the set point and time never running backwards, the accumulator
    rises towards the guard and never passes it.
   */
  lemma {:induction false} NonNegativeErrorRaisesIntegral(e: Engine, samples: seq<Sample>)
    requires Guarded(e)
    requires forall k :: 0 <= k < |samples| ==> samples[k].feedback <= e.setPoint
    requires Paced(e.lastTime, if e.sampleTime < 0.0 then 0.0 else e.sampleTime, samples)
    ensures e.iTerm <= Run(e, samples).iTerm <= e.windup
    decreases |samples|
  {
    if |samples| > 0 {
      var e1 := Update(e, samples[0].feedback, samples[0].time);
      var error := e.setPoint - samples[0].feedback;
      var dt := samples[0].time - e.lastTime;
      assert error * dt >= 0.0;
      ClampMonotone(e.iTerm, e.iTerm + error * dt, e.windup);
      assert e1.iTerm >= e.iTerm;
      assert e1.lastTime == samples[0].time;
      forall k | 0 <= k < |samples[1..]|
        ensures samples[1..][k].feedback <= e1.setPoint
      {
        assert samples[1..][k] == samples[k + 1];
      }
      NonNegativeErrorRaisesIntegral(e1, samples[1..]);
    }
  }

  // The worked example: kp = 1, set point 50, feedback 30 from a fresh engine at
  // time 0; then ki = 0.1 and a second update one second later. The engine states
  // are written field by field in declaration order.

  /** A fresh engine with kp = 1 whose set point is then set to 50. */
  lemma ScenarioStart()
    ensures SetSetPoint(New(1.0, 0.0, 0.0, 0.0), 50.0)
            == Engine(0.0, 0.0, 0.0, 1.0, 0.0, 0.0, 0.0, 0.0, 0.0, 0.0, 0.0, 0.0, 0.0, 20.0, 0.0, 50.0)
  {
  }

  /** First update at t = 0 with feedback 30: p = 20 and output 20. */
  lemma ScenarioFirstUpdate()
    ensures Update(Engine(0.0, 0.0, 0.0, 1.0, 0.0, 0.0, 0.0, 0.0, 0.0, 0.0, 0.0, 0.0, 0.0, 20.0, 0.0, 50.0), 30.0, 0.0)
            == Engine(20.0, 0.0, 0.0, 1.0, 0.0, 0.0, 0.0, 0.0, 0.0, 20.0, 0.0, 0.0, 20.0, 20.0, 20.0, 50.0)
  {
    var e := Engine(0.0, 0.0, 0.0, 1.0, 0.0, 0.0, 0.0, 0.0, 0.0, 0.0, 0.0, 0.0, 0.0, 20.0, 0.0, 50.0);
    assert Computes(e, 0.0);
    var r := Update(e, 30.0, 0.0);
    assert r.pTerm == 20.0 && r.p == 20.0;
    assert r.iTerm == 0.0 && r.i == 0.0;
    assert r.dTerm == 0.0 && r.d == 0.0;
    assert r.output == 20.0 && r.lastError == 20.0 && r.lastTime == 0.0 && r.currentTime == 0.0;
  }

  /** With ki = 0.1, the update at t = 1 adds i = 0.1 * 20 * 1 = 2: output 22. */
  lemma ScenarioSecondUpdate()
    ensures Update(Engine(20.0, 0.0, 0.0, 1.0, 0.1, 0.0, 0.0, 0.0, 0.0, 20.0, 0.0, 0.0, 20.0, 20.0, 20.0, 50.0), 30.0, 1.0)
            == Engine(20.0, 2.0, 0.0, 1.0, 0.1, 0.0, 0.0, 1.0, 1.0, 20.0, 20.0, 0.0, 22.0, 20.0, 20.0, 50.0)
  {
    var e := Engine(20.0, 0.0, 0.0, 1.0, 0.1, 0.0, 0.0, 0.0, 0.0, 20.0, 0.0, 0.0, 20.0, 20.0, 20.0, 50.0);
    assert Computes(e, 1.0);
    var r := Update(e, 30.0, 1.0);
    assert r.pTerm == 20.0 && r.p == 20.0;
    assert r.iTerm == 20.0 && r.i == 2.0;
    assert r.dTerm == 0.0 && r.d == 0.0;
    assert r.output == 22.0 && r.lastError == 20.0 && r.lastTime == 1.0 && r.currentTime == 1.0;
  }
}

=== FILE: pid_sensor.dfy ===
/**
  The sensor side of the controller (custom_components/pid_controller/sensor.py):
  one control step `_update_sensor`, the mapping of the 0..100 control state onto
  the displayed range (`native_value`, `raw_state`, `units`) and gain inversion.

  Every template the sensor renders is an input here: one `Readings` value holds
  what the templates render to during a step, one `Display` value what they
  render to when the state is shown. The engine's clock is the step's `now`.
 */
module PidSensor {
  import opened PidEngine
  import opened Rounding

  type EntityId = string

  datatype Option<T> = None | Some(value: T)

  /**
    Where the step's trigger is compared: the controlled entity whose state is
    the feedback, and the entities whose change resets the engine (those read by
    the set point, enabled and invert templates).
   */
  datatype Wiring = Wiring(source: EntityId, resetPid: seq<EntityId>)

  /**
    What the templates render to during one step. The gains are the configured
    values before inversion; sample time and windup are already truncated to
    integers, as the sensor's properties return them.
   */
  datatype Readings = Readings(
    enabled: bool,
    source: real,
    setPoint: real,
    proportional: real,
    integral: real,
    derivative: real,
    invert: bool,
    sampleTime: int,
    windup: int
  )

  /** What the templates render to when the state is displayed. */
  datatype Display = Display(minimum: real, maximum: real, round: RoundMode, precision: int)

  /** The sensor: its 0..100 control state and the engine, created on the first PID-mode step. */
  datatype Sensor = Sensor(sensorState: real, pid: Option<Engine>)

  const Initial: Sensor := Sensor(0.0, None)

  // ---------------------------------------------------------------------------
  // Gains and mode

  /** A configured gain as the sensor hands it on: negated when `invert` is set. */
  function EffectiveGain(configured: real, invert: bool): (g: real)
    ensures invert ==> g + configured == 0.0
    ensures !invert ==> g == configured
  {
    if invert then configured * -1.0 else configured
  }

  /** The `proportional` property: the configured gain, negated when inverted, zero exactly when configured zero. */
  function Proportional(rd: Readings): (g: real)
    ensures g == 0.0 <==> rd.proportional == 0.0
    ensures rd.invert ==> g + rd.proportional == 0.0
    ensures !rd.invert ==> g == rd.proportional
  {
    EffectiveGain(rd.proportional, rd.invert)
  }

  /** The `integral` property: the configured gain, negated when inverted, zero exactly when configured zero. */
  function Integral(rd: Readings): (g: real)
    ensures g == 0.0 <==> rd.integral == 0.0
    ensures rd.invert ==> g + rd.integral == 0.0
    ensures !rd.invert ==> g == rd.integral
  {
    EffectiveGain(rd.integral, rd.invert)
  }

  /** The `derivative` property: the configured gain, negated when inverted, zero exactly when configured zero. */
  function Derivative(rd: Readings): (g: real)
    ensures g == 0.0 <==> rd.derivative == 0.0
    ensures rd.invert ==> g + rd.derivative == 0.0
    ensures !rd.invert ==> g == rd.derivative
  {
    EffectiveGain(rd.derivative, rd.invert)
  }

  /** Inverting twice restores the configured gain, and inversion keeps zero gains zero. */
  lemma InvertIsInvolution(g: real, invert: bool)
    ensures EffectiveGain(EffectiveGain(g, invert), invert) == g
    ensures EffectiveGain(g, invert) == 0.0 <==> g == 0.0
  {
  }

  /**
    Bang-bang control runs when all three effective gains are zero, which is
    when all three configured gains are zero.
   */
  function IsBangBang(rd: Readings): (b: bool)
    ensures b <==> rd.proportional == 0.0 && rd.integral == 0.0 && rd.derivative == 0.0
  {
    Proportional(rd) == 0.0 && Integral(rd) == 0.0 && Derivative(rd) == 0.0
  }

  /** Inversion never changes which mode a step runs in. */
  lemma ModeIndependentOfInvert(rd: Readings)
    ensures IsBangBang(rd) <==> IsBangBang(rd.(invert := !rd.invert))
  {
  }

  /** The two-level output of bang-bang mode: full below the set point, off at or above it. */
  function BangBangState(source: real, setPoint: real, invert: bool): (r: real)
    ensures r == 0.0 || r == 100.0
    ensures r == 100.0 <==> (source < setPoint) != invert
  {
    if source >= setPoint then (if invert then 100.0 else 0.0)
    else (if invert then 0.0 else 100.0)
  }

  /** Inversion swaps the two levels. */
  lemma BangBangInvertSwaps(source: real, setPoint: real)
    ensures BangBangState(source, setPoint, true) == 100.0 - BangBangState(source, setPoint, false)
  {
  }

  /** `max(min(output, 100), 0)`. */
  function ClampPercent(x: real): (r: real)
    ensures 0.0 <= r <= 100.0
    ensures 0.0 <= x <= 100.0 ==> r == x
    ensures x > 100.0 ==> r == 100.0
    ensures x < 0.0 ==> r == 0.0
  {
    var capped := if x < 100.0 then x else 100.0;
    if capped > 0.0 then capped else 0.0
  }

  // ---------------------------------------------------------------------------
  // The control step

  /** The sensor's `reset_pid`: resets the engine when there is one. */
  function ResetSensorPid(s: Sensor): (r: Sensor)
    ensures r.sensorState == s.sensorState
    ensures s.pid.None? ==> r == s
    ensures s.pid.Some? ==> r.pid == Some(ResetPid(s.pid.value))
  {
    match s.pid
    case None => s
    case Some(e) => s.(pid := Some(ResetPid(e)))
  }

  /** The first thing a step does: reset the engine when the trigger is a reset entity. */
  function ResetOnTrigger(w: Wiring, trigger: Option<EntityId>, s: Sensor): (r: Sensor)
    ensures r.sensorState == s.sensorState
    ensures r.pid.Some? <==> s.pid.Some?
    ensures s.pid.Some? ==> r.pid.value.setPoint == s.pid.value.setPoint
    ensures IsResetTrigger(w, trigger) && s.pid.Some? ==> r.pid == Some(ResetPid(s.pid.value))
    ensures !IsResetTrigger(w, trigger) ==> r == s
  {
    if IsResetTrigger(w, trigger) then ResetSensorPid(s) else s
  }

  predicate IsResetTrigger(w: Wiring, trigger: Option<EntityId>)
  {
    trigger.Some? && trigger.value in w.resetPid
  }

  predicate IsSourceTrigger(w: Wiring, trigger: Option<EntityId>)
  {
    trigger == Some(w.source)
  }

  /**
    The PID-mode preparation of the engine: create it, or write the effective
    gains into it; then copy sample time and windup; then, if the set point
    moved, reset the running terms before storing the new set point.

    The source creates the engine with a `logger=` keyword the engine's
    constructor does not accept, and reads and writes the gains through `kp`,
    `ki` and `kd` where the engine exposes `kpg`, `kig` and `kdg`. This model
    takes the evidently intended behaviour: the constructor receives the gains
    and the clock, and the gain sync assigns the engine's `_kp`, `_ki` and `_kd`
    directly. Writing a field only when it differs is the same as writing it.
   */
  function Prepare(pid: Option<Engine>, rd: Readings, now: real): (e: Engine)
    ensures e.kp == Proportional(rd) && e.ki == Integral(rd) && e.kd == Derivative(rd)
    ensures e.sampleTime == rd.sampleTime as real && e.windup == rd.windup as real
    ensures e.setPoint == rd.setPoint
    // an existing engine keeps its running state unless the set point moved
    ensures pid.Some? && pid.value.setPoint == rd.setPoint ==> SameRunningState(pid.value, e)
    // a moved set point clears the running terms first
    ensures pid.Some? && pid.value.setPoint != rd.setPoint ==>
      e.iTerm == 0.0 && e.pTerm == 0.0 && e.dTerm == 0.0 && e.lastError == 0.0 && e.lastTime == 0.0
    // a new engine starts its clock now; a non-zero first set point resets its last time
    ensures pid.None? ==> e.currentTime == now && e.output == 0.0 && e.iTerm == 0.0
    ensures pid.None? ==> e.lastTime == (if rd.setPoint == 0.0 then now else 0.0)
    ensures pid.None? ==> e.lastError == 0.0 && e.pTerm == 0.0 && e.dTerm == 0.0
                          && e.p == 0.0 && e.i == 0.0 && e.d == 0.0
    // the weighted terms, the output and the clock survive even a set-point move
    ensures pid.Some? ==> e.p == pid.value.p && e.i == pid.value.i && e.d == pid.value.d
                          && e.output == pid.value.output && e.currentTime == pid.value.currentTime
  {
    var synced :=
      match pid
      case None => New(Proportional(rd), Integral(rd), Derivative(rd), now)
      case Some(existing) => SetKd(SetKi(SetKp(existing, Proportional(rd)), Integral(rd)), Derivative(rd));
    var timed := SetWindup(SetSampleTime(synced, rd.sampleTime as real), rd.windup as real);
    if rd.setPoint != timed.setPoint then SetSetPoint(ResetPid(timed), rd.setPoint)
    else timed
  }

  /** The running state an engine carries between steps: everything but its settings. */
  predicate SameRunningState(a: Engine, b: Engine)
  {
    a.p == b.p && a.i == b.i && a.d == b.d && a.output == b.output
    && a.pTerm == b.pTerm && a.iTerm == b.iTerm && a.dTerm == b.dTerm
    && a.lastError == b.lastError && a.lastTime == b.lastTime && a.currentTime == b.currentTime
  }

  /**
    `_update_sensor`: one control step, run when `trigger` changed state
    (`None` for the start-up call and for every `update()` refresh).
   */
  function Step(w: Wiring, trigger: Option<EntityId>, rd: Readings, now: real, s: Sensor): (r: Sensor)
    // disabled: only the reset requested by a reset entity happens
    ensures !rd.enabled ==> r.sensorState == s.sensorState
    ensures !rd.enabled && !IsResetTrigger(w, trigger) ==> r == s
    // outside PID mode the engine is touched only by the reset a reset entity requests
    ensures (!rd.enabled || IsBangBang(rd)) && !IsResetTrigger(w, trigger) ==> r.pid == s.pid
    ensures (!rd.enabled || IsBangBang(rd)) && IsResetTrigger(w, trigger) && s.pid.Some? ==>
      r.pid == Some(ResetPid(s.pid.value))
    ensures (!rd.enabled || IsBangBang(rd)) ==> r.pid == ResetOnTrigger(w, trigger, s).pid
    ensures (!rd.enabled || IsBangBang(rd)) && s.pid.None? ==> r.pid.None?
    // bang-bang mode acts only on the source entity
    ensures rd.enabled && IsBangBang(rd) && !IsSourceTrigger(w, trigger) ==> r.sensorState == s.sensorState
    ensures rd.enabled && IsBangBang(rd) && IsSourceTrigger(w, trigger) ==>
      (r.sensorState == 0.0 || r.sensorState == 100.0)
      && (r.sensorState == 100.0 <==> (rd.source < rd.setPoint) != rd.invert)
    // PID mode: the engine exists, carries the step's settings, and the state is its clamped output
    ensures rd.enabled && !IsBangBang(rd) ==>
      && 0.0 <= r.sensorState <= 100.0
      && r.pid.Some?
      && r.pid.value.kp == Proportional(rd) && r.pid.value.ki == Integral(rd)
      && r.pid.value.kd == Derivative(rd) && r.pid.value.setPoint == rd.setPoint
      && r.pid.value.sampleTime == rd.sampleTime as real && r.pid.value.windup == rd.windup as real
    ensures rd.enabled && !IsBangBang(rd) ==> r.sensorState == ClampPercent(r.pid.value.output)
    // the engine is advanced only by the source entity, by exactly one update of the prepared engine
    ensures rd.enabled && !IsBangBang(rd) && IsSourceTrigger(w, trigger) ==>
      r.pid.value == Update(Prepare(ResetOnTrigger(w, trigger, s).pid, rd, now), rd.source, now)
    ensures rd.enabled && !IsBangBang(rd) && !IsSourceTrigger(w, trigger) ==>
      r.pid.value == Prepare(ResetOnTrigger(w, trigger, s).pid, rd, now)
    ensures rd.enabled && !IsBangBang(rd) && !IsSourceTrigger(w, trigger) && !IsResetTrigger(w, trigger)
            && s.pid.Some? && s.pid.value.setPoint == rd.setPoint ==>
      SameRunningState(s.pid.value, r.pid.value)
  {
    var s1 := ResetOnTrigger(w, trigger, s);
    if !rd.enabled then s1
    else if IsBangBang(rd) then
      if !IsSourceTrigger(w, trigger) then s1
      else s1.(sensorState := BangBangState(rd.source, rd.setPoint, rd.invert))
    else
      var prepared := Prepare(s1.pid, rd, now);
      var advanced := if IsSourceTrigger(w, trigger) then Update(prepared, rd.source, now) else prepared;
      Sensor(ClampPercent(advanced.output), Some(advanced))
  }

  /**
    A set-point change resets the engine before the new set point is stored, so
    the source update in the same step drops the old accumulator and integrates
    the error over the whole span since time 0. Under the wall clock that span
    is the clock reading itself, and any error large enough for the product to
    pass the guard leaves the accumulator at the guard.
   */
  lemma SetPointChangeRestartsIntegral(w: Wiring, trigger: Option<EntityId>, rd: Readings, now: real, s: Sensor)
    requires rd.enabled && !IsBangBang(rd) && IsSourceTrigger(w, trigger)
    requires s.pid.Some? && s.pid.value.setPoint != rd.setPoint
    requires now >= rd.sampleTime as real
    ensures Step(w, trigger, rd, now, s).pid.value.iTerm
            == WindupClamp((rd.setPoint - rd.source) * now, rd.windup as real)
    ensures 0 <= rd.windup && (rd.setPoint - rd.source) * now > rd.windup as real ==>
      Step(w, trigger, rd, now, s).pid.value.iTerm == rd.windup as real
    ensures 0 <= rd.windup && (rd.setPoint - rd.source) * now < -(rd.windup as real) ==>
      Step(w, trigger, rd, now, s).pid.value.iTerm == -(rd.windup as real)
  {
    var s1 := ResetOnTrigger(w, trigger, s);
    var prepared := Prepare(s1.pid, rd, now);
    PreparedAfterMoveIsAtRest(s1.pid, rd, now);
    UpdateAfterResetPid(prepared, rd.source, now);
    var advanced := Update(prepared, rd.source, now);
    assert advanced.iTerm == WindupClamp((rd.setPoint - rd.source) * now, rd.windup as real);
    assert Step(w, trigger, rd, now, s).pid == Some(advanced);
  }

  /**
    The set point moves from 20 to 21 at wall-clock time 1700000001, one second
    after the last computation, with the accumulator at 3 and windup 20. The
    reset sends the accumulator to the guard (integral contribution 2), where
    the same update without the reset would have left it at 3.5.
   */
  lemma ScenarioWallClockSetPointMove()
    ensures var e := Engine(0.0, 0.3, 0.0, 1.0, 0.1, 0.0, 0.0, 1700000000.0, 1700000000.0,
                            0.0, 3.0, 0.0, 0.3, 20.0, 0.0, 20.0);
            var rd := Readings(true, 20.5, 21.0, 1.0, 0.1, 0.0, false, 0, 20);
            var r := Step(Wiring("sensor.temperature", []), Some("sensor.temperature"), rd,
                          1700000001.0, Sensor(0.3, Some(e)));
            r.pid.value.iTerm == 20.0 && r.pid.value.i == 2.0
            && Update(e.(setPoint := 21.0), 20.5, 1700000001.0).iTerm == 3.5
  {
    var e := Engine(0.0, 0.3, 0.0, 1.0, 0.1, 0.0, 0.0, 1700000000.0, 1700000000.0,
                    0.0, 3.0, 0.0, 0.3, 20.0, 0.0, 20.0);
    var rd := Readings(true, 20.5, 21.0, 1.0, 0.1, 0.0, false, 0, 20);
    var w := Wiring("sensor.temperature", []);
    var s := Sensor(0.3, Some(e));
    assert !IsBangBang(rd) && IsSourceTrigger(w, Some("sensor.temperature"));
    assert (rd.setPoint - rd.source) * 1700000001.0 == 850000000.5;
    SetPointChangeRestartsIntegral(w, Some("sensor.temperature"), rd, 1700000001.0, s);
    var r := Step(w, Some("sensor.temperature"), rd, 1700000001.0, s);
    assert r.pid.value.iTerm == 20.0;
    assert r.pid.value.ki == 0.1;
    assert Computes(e.(setPoint := 21.0), 1700000001.0);
  }

  lemma PreparedAfterMoveIsAtRest(pid: Option<Engine>, rd: Readings, now: real)
    requires pid.Some? && pid.value.setPoint != rd.setPoint
    ensures ResetPid(Prepare(pid, rd, now)) == Prepare(pid, rd, now)
  {
  }

  /**
    A trigger that is neither the source nor a reset entity, under unchanged
    readings, settles after one step: repeating it changes nothing.
   */
  lemma NonSourceStepIsIdempotent(w: Wiring, trigger: Option<EntityId>, rd: Readings, now: real, s: Sensor)
    requires !IsSourceTrigger(w, trigger) && !IsResetTrigger(w, trigger)
    ensures Step(w, trigger, rd, now, Step(w, trigger, rd, now, s)) == Step(w, trigger, rd, now, s)
  {
    var r := Step(w, trigger, rd, now, s);
    if rd.enabled && !IsBangBang(rd) {
      var e := r.pid.value;
      assert Prepare(r.pid, rd, now) == e;
    }
  }

  // ---------------------------------------------------------------------------
  // Runs of steps

  /** One state change the sensor reacts to, with the readings and clock of that moment. */
  datatype Event = Event(trigger: Option<EntityId>, readings: Readings, now: real)

  function RunSteps(w: Wiring, events: seq<Event>, s: Sensor): Sensor
    decreases |events|
  {
    if |events| == 0 then s
    else RunSteps(w, events[1..], Step(w, events[0].trigger, events[0].readings, events[0].now, s))
  }

  /** Whatever happens, the control state stays a percentage. */
  lemma {:induction false} RunKeepsStateInPercentRange(w: Wiring, events: seq<Event>, s: Sensor)
    requires 0.0 <= s.sensorState <= 100.0
    ensures 0.0 <= RunSteps(w, events, s).sensorState <= 100.0
    decreases |events|
  {
    if |events| > 0 {
      RunKeepsStateInPercentRange(w, events[1..], Step(w, events[0].trigger, events[0].readings, events[0].now, s));
    }
  }

  // ---------------------------------------------------------------------------
  // Display

  /** The round mode named by the rendered template text. */
  function ParseRoundMode(name: string): (m: RoundMode)
    ensures m == Floor <==> name == "floor"
    ensures m == Ceil <==> name == "ceil"
  {
    if name == "floor" then Floor
    else if name == "ceil" then Ceil
    else Nearest
  }

  /** `units`: the width of the displayed range. */
  function Units(d: Display): (u: real)
    ensures d.minimum + u == d.maximum
  {
    d.maximum - d.minimum
  }

  /** `raw_state`: the control state as a fraction. */
  function RawState(s: Sensor): (f: real)
    ensures f * 100.0 == s.sensorState
    ensures 0.0 <= s.sensorState <= 100.0 ==> 0.0 <= f <= 1.0
  {
    s.sensorState / 100.0
  }

  /** The displayed value before rounding: the fraction laid over [minimum, maximum]. */
  function Unrounded(d: Display, s: Sensor): (v: real)
    ensures d.minimum > d.maximum ==> v == d.minimum
    ensures d.minimum <= d.maximum && 0.0 <= s.sensorState <= 100.0 ==> d.minimum <= v <= d.maximum
  {
    var fraction := if d.minimum > d.maximum then 0.0 else RawState(s);
    var v := d.minimum + Units(d) * fraction;
    assert d.minimum <= d.maximum && 0.0 <= s.sensorState <= 100.0 ==> d.minimum <= v <= d.maximum by {
      if d.minimum <= d.maximum && 0.0 <= s.sensorState <= 100.0 {
        FractionWithin(Units(d), fraction);
      }
    }
    v
  }

  lemma FractionWithin(u: real, f: real)
    requires 0.0 <= u && 0.0 <= f <= 1.0
    ensures 0.0 <= u * f <= u
  {
  }

  /** On a non-empty range, the control state can be read back from the unrounded value. */
  lemma UnroundedInverse(d: Display, s: Sensor)
    requires d.minimum < d.maximum
    ensures (Unrounded(d, s) - d.minimum) / Units(d) * 100.0 == s.sensorState
  {
    var u := Units(d);
    var f := RawState(s);
    assert Unrounded(d, s) - d.minimum == u * f;
    assert (u * f) / u == f;
  }

  /** A larger control state never displays a smaller unrounded value. */
  lemma UnroundedMonotone(d: Display, s: Sensor, t: Sensor)
    requires s.sensorState <= t.sensorState
    ensures Unrounded(d, s) <= Unrounded(d, t)
  {
    if d.minimum <= d.maximum {
      var u := Units(d);
      assert RawState(s) <= RawState(t);
      assert u * RawState(t) - u * RawState(s) == u * (RawState(t) - RawState(s));
      NonNegativeProduct(u, RawState(t) - RawState(s));
    }
  }

  lemma NonNegativeProduct(a: real, b: real)
    requires 0.0 <= a && 0.0 <= b
    ensures 0.0 <= a * b
  {
  }

  /**
    `native_value`: the minimum while disabled; otherwise the unrounded value
    rounded at the display precision (then converted to an integer when the
    precision is 0).
   */
  function NativeValue(enabled: bool, d: Display, s: Sensor): (v: real)
    ensures !enabled ==> v == d.minimum
    ensures enabled ==> OnGrid(v, d.precision)
    ensures enabled && d.round == Floor ==> v <= Unrounded(d, s) < v + GridStep(d.precision)
    ensures enabled && d.round == Ceil ==> v - GridStep(d.precision) < Unrounded(d, s) <= v
    ensures enabled && d.round == Nearest ==>
      -GridStep(d.precision) / 2.0 <= v - Unrounded(d, s) <= GridStep(d.precision) / 2.0
  {
    if !enabled then d.minimum
    else
      var rounded := RoundAt(d.round, Unrounded(d, s), d.precision);
      if d.precision == 0 then
        TruncOfIntegralIsIdentity(rounded);
        TruncInt(rounded) as real
      else rounded
  }

  /**
    When both ends of the range are on the display grid (whole numbers at
    precision 0, hundredths at precision 2, ...), the displayed value of any
    0..100 state lies in [minimum, maximum] whatever the round mode.
   */
  lemma NativeValueWithinRange(d: Display, s: Sensor)
    requires d.minimum <= d.maximum
    requires 0.0 <= s.sensorState <= 100.0
    requires OnGrid(d.minimum, d.precision) && OnGrid(d.maximum, d.precision)
    ensures d.minimum <= NativeValue(true, d, s) <= d.maximum
  {
    var x := Unrounded(d, s);
    RoundAtStaysBetweenGridPoints(d.round, x, d.precision, d.minimum, d.maximum);
    var rounded := RoundAt(d.round, x, d.precision);
    if d.precision == 0 {
      TruncOfIntegralIsIdentity(rounded);
    }
    assert NativeValue(true, d, s) == rounded;
  }

  /** From the first step on, every state the sensor reaches displays inside its range. */
  lemma DisplayedValueAlwaysInRange(w: Wiring, events: seq<Event>, d: Display)
    requires d.minimum <= d.maximum
    requires OnGrid(d.minimum, d.precision) && OnGrid(d.maximum, d.precision)
    ensures d.minimum <= NativeValue(true, d, RunSteps(w, events, Initial)) <= d.maximum
  {
    RunKeepsStateInPercentRange(w, events, Initial);
    NativeValueWithinRange(d, RunSteps(w, events, Initial));
  }

  // ---------------------------------------------------------------------------
  // The PID-mode branch as the source writes it

  /** The two exceptions the PID-mode branch raises as written. */
  datatype PyError =
    | TypeError       // the engine's constructor has no `logger` keyword
    | AttributeError  // the engine has no `kp` attribute (it has `kpg`)

  /** How a step as written ends: normally, or by an exception that leaves the state reached so far. */
  datatype StepOutcome = Completed(sensor: Sensor) | Raised(error: PyError, sensor: Sensor)

  /**
    `_update_sensor` exactly as written: the reset and the disabled and bang-bang
    branches behave as in `Step`, while the PID-mode branch raises before it
    changes anything — creating the engine fails on the unknown keyword, and an
    existing engine fails on the first gain comparison.
   */
  function StepAsWritten(w: Wiring, trigger: Option<EntityId>, rd: Readings, now: real, s: Sensor): (o: StepOutcome)
    ensures o.Raised? <==> rd.enabled && !IsBangBang(rd)
    ensures o.Raised? ==> o.sensor.sensorState == s.sensorState
    ensures o.Raised? && s.pid.None? ==> o.error == TypeError && o.sensor == s
    ensures o.Raised? && s.pid.Some? ==> o.error == AttributeError
  {
    var s1 := ResetOnTrigger(w, trigger, s);
    if !rd.enabled then Completed(s1)
    else if IsBangBang(rd) then
      if !IsSourceTrigger(w, trigger) then Completed(s1)
      else Completed(s1.(sensorState := BangBangState(rd.source, rd.setPoint, rd.invert)))
    else if s1.pid.None? then Raised(TypeError, s1)
    else Raised(AttributeError, s1)
  }

  /** Outside PID mode the code as written and the corrected step agree. */
  lemma AsWrittenAgreesOutsidePidMode(w: Wiring, trigger: Option<EntityId>, rd: Readings, now: real, s: Sensor)
    requires !rd.enabled || IsBangBang(rd)
    ensures StepAsWritten(w, trigger, rd, now, s) == Completed(Step(w, trigger, rd, now, s))
  {
  }

  /** The sensor as written, over a run of events; an exception ends the step, not the sensor. */
  function RunAsWritten(w: Wiring, events: seq<Event>, s: Sensor): Sensor
    decreases |events|
  {
    if |events| == 0 then s
    else RunAsWritten(w, events[1..], StepAsWritten(w, events[0].trigger, events[0].readings, events[0].now, s).sensor)
  }

  /**
    As written, the sensor never gets an engine: from the initial state, after
    any run of events, there is none, and every PID-mode step raises a TypeError.
   */
  lemma {:induction false} AsWrittenNeverCreatesEngine(w: Wiring, events: seq<Event>, s: Sensor)
    requires s.pid.None?
    ensures RunAsWritten(w, events, s).pid.None?
    decreases |events|
  {
    if |events| > 0 {
      var o := StepAsWritten(w, events[0].trigger, events[0].readings, events[0].now, s);
      assert o.sensor.pid.None?;
      AsWrittenNeverCreatesEngine(w, events[1..], o.sensor);
    }
  }

  /** The discrepancy on one concrete input: a proportional-only controller below its set point. */
  lemma AsWrittenPidStepFails()
    ensures StepAsWritten(Wiring("sensor.temperature", []), Some("sensor.temperature"),
              Readings(true, 18.0, 20.0, 1.0, 0.0, 0.0, false, 0, 20), 1.0, Initial)
            == Raised(TypeError, Initial)
    ensures Step(Wiring("sensor.temperature", []), Some("sensor.temperature"),
              Readings(true, 18.0, 20.0, 1.0, 0.0, 0.0, false, 0, 20), 1.0, Initial).sensorState == 2.0
  {
    var rd := Readings(true, 18.0, 20.0, 1.0, 0.0, 0.0, false, 0, 20);
    var prepared := Prepare(None, rd, 1.0);
    assert prepared.lastTime == 0.0 && prepared.setPoint == 20.0 && prepared.kp == 1.0;
    assert prepared.ki == 0.0 && prepared.kd == 0.0;
    var advanced := Update(prepared, 18.0, 1.0);
    assert advanced.output == 2.0;
  }

  /**
    The AttributeError is latent: once the constructor call succeeds, a sensor
    holding an engine fails on the gain comparison of its next PID-mode step,
    keeping its state and (apart from a requested reset) its engine.
   */
  lemma AsWrittenLatentAttributeError(w: Wiring, trigger: Option<EntityId>, rd: Readings, now: real, state: real, e: Engine)
    requires rd.enabled && !IsBangBang(rd)
    ensures !IsResetTrigger(w, trigger) ==>
      StepAsWritten(w, trigger, rd, now, Sensor(state, Some(e))) == Raised(AttributeError, Sensor(state, Some(e)))
    ensures IsResetTrigger(w, trigger) ==>
      StepAsWritten(w, trigger, rd, now, Sensor(state, Some(e))) == Raised(AttributeError, Sensor(state, Some(ResetPid(e))))
  {
  }

  /** The latent error on a concrete engine: a freshly constructed proportional controller. */
  lemma AsWrittenFreshEngineFails()
    ensures StepAsWritten(Wiring("sensor.temperature", []), Some("sensor.temperature"),
              Readings(true, 18.0, 20.0, 1.0, 0.0, 0.0, false, 0, 20), 1.0,
              Sensor(0.0, Some(New(1.0, 0.0, 0.0, 0.0)))).error == AttributeError
  {
    var rd := Readings(true, 18.0, 20.0, 1.0, 0.0, 0.0, false, 0, 20);
    assert rd.enabled && !IsBangBang(rd);
    assert !IsResetTrigger(Wiring("sensor.temperature", []), Some("sensor.temperature"));
    AsWrittenLatentAttributeError(Wiring("sensor.temperature", []), Some("sensor.temperature"), rd, 1.0, 0.0, New(1.0, 0.0, 0.0, 0.0));
  }
}

=== FILE: rounding.dfy ===
/**
  Decimal rounding as the sensor's displayed value uses it
  (custom_components/pid_controller/sensor.py, `native_value`): floor, ceil or
  round at `n` decimal places, where `n` may be zero or negative.

  Values are exact reals. Scaling by 10^n is written as `n` multiplications
  (or divisions) by ten, so every proof below stays in linear arithmetic. A
  value is on the grid of precision `n` when it is an integer multiple of 10^-n;
  every rounding function returns a grid point.
 */
module Rounding {

  /** The rounding modes the sensor knows by name; any other name rounds to nearest. */
  datatype RoundMode = Floor | Ceil | Nearest

  /** `x * 10^n` for any integer `n`. */
  function Scale(x: real, n: int): real
    decreases if n < 0 then -n else n
  {
    if n == 0 then x
    else if n > 0 then Scale(10.0 * x, n - 1)
    else Scale(x / 10.0, n + 1)
  }

  /** `pow(10, n)`. */
  function Pow10(n: int): real
  {
    Scale(1.0, n)
  }

  /** Scaling is multiplication by `pow(10, n)`. */
  lemma {:induction false} ScaleIsMultiplication(x: real, n: int)
    ensures Scale(x, n) == x * Pow10(n)
    decreases if n < 0 then -n else n
  {
    if n > 0 {
      ScaleIsMultiplication(10.0 * x, n - 1);
      ScaleIsMultiplication(10.0, n - 1);
    } else if n < 0 {
      ScaleIsMultiplication(x / 10.0, n + 1);
      ScaleIsMultiplication(1.0 / 10.0, n + 1);
    }
  }

  /** Scaling is linear. */
  lemma {:induction false} ScaleLinear(a: real, b: real, n: int)
    ensures Scale(a - b, n) == Scale(a, n) - Scale(b, n)
    ensures Scale(a + b, n) == Scale(a, n) + Scale(b, n)
    decreases if n < 0 then -n else n
  {
    if n > 0 {
      ScaleLinear(10.0 * a, 10.0 * b, n - 1);
    } else if n < 0 {
      ScaleLinear(a / 10.0, b / 10.0, n + 1);
    }
  }

  /** Scaling preserves and reflects order. */
  lemma {:induction false} ScaleMonotone(a: real, b: real, n: int)
    ensures a <= b <==> Scale(a, n) <= Scale(b, n)
    ensures a < b <==> Scale(a, n) < Scale(b, n)
    decreases if n < 0 then -n else n
  {
    if n > 0 {
      ScaleMonotone(10.0 * a, 10.0 * b, n - 1);
    } else if n < 0 {
      ScaleMonotone(a / 10.0, b / 10.0, n + 1);
    }
  }

  /** One more factor of ten can be taken at either end of the scaling. */
  lemma {:induction false} ScaleShift(x: real, n: int)
    ensures Scale(x, n + 1) == Scale(10.0 * x, n)
    ensures Scale(x, n - 1) == Scale(x / 10.0, n)
    decreases if n < 0 then -n else n
  {
    if n > 0 {
      ScaleShift(10.0 * x, n - 1);
    } else if n < 0 {
      ScaleShift(x / 10.0, n + 1);
    }
  }

  /** Factors of ten commute with scaling. */
  lemma {:induction false} ScaleTen(x: real, n: int)
    ensures Scale(10.0 * x, n) == 10.0 * Scale(x, n)
    ensures Scale(x / 10.0, n) == Scale(x, n) / 10.0
    decreases if n < 0 then -n else n
  {
    if n > 0 {
      ScaleTen(10.0 * x, n - 1);
      assert 10.0 * (x / 10.0) == x / 10.0 * 10.0;
    } else if n < 0 {
      ScaleTen(x / 10.0, n + 1);
      assert (10.0 * x) / 10.0 == 10.0 * (x / 10.0);
    }
  }

  /** Scaling by 10^-n undoes scaling by 10^n. */
  lemma {:induction false} ScaleInverse(x: real, n: int)
    ensures Scale(Scale(x, n), -n) == x
    decreases if n < 0 then -n else n
  {
    if n > 0 {
      var w := Scale(x, n - 1);
      ScaleTen(x, n - 1);
      ScaleShift(10.0 * w, -n);
      assert (10.0 * w) / 10.0 == w;
      ScaleInverse(x, n - 1);
    } else if n < 0 {
      var w := Scale(x, n + 1);
      ScaleTen(x, n + 1);
      ScaleShift(w / 10.0, -n - 1);
      assert 10.0 * (w / 10.0) == w;
      ScaleInverse(x, n + 1);
    }
  }

  lemma {:induction false} ScaleZero(n: int)
    ensures Scale(0.0, n) == 0.0
    decreases if n < 0 then -n else n
  {
    if n > 0 {
      ScaleZero(n - 1);
    } else if n < 0 {
      ScaleZero(n + 1);
    }
  }

  /** The distance between neighbouring grid points of precision `n`: 10^-n. */
  function GridStep(n: int): (r: real)
    ensures r > 0.0
  {
    ScaleMonotone(0.0, 1.0, -n);
    ScaleZero(-n);
    Scale(1.0, -n)
  }

  /** The largest integer not above `y` (Python's `math.floor`). */
  function FloorInt(y: real): (k: int)
    ensures k as real <= y < k as real + 1.0
  {
    y.Floor
  }

  /** The smallest integer not below `y` (Python's `math.ceil`). */
  function CeilInt(y: real): (k: int)
    ensures k as real - 1.0 < y <= k as real
  {
    -((-y).Floor)
  }

  /**
    The integer nearest to `y`, ties going to the even neighbour, the rule of
    Python's `round` (exact reals stand in for binary floats).
   */
  function RoundHalfEvenInt(y: real): (k: int)
    ensures -0.5 <= k as real - y <= 0.5
    ensures k as real - y == 0.5 || y - k as real == 0.5 ==> k % 2 == 0
  {
    var f := y.Floor;
    var frac := y - f as real;
    if frac < 0.5 then f
    else if frac > 0.5 then f + 1
    else if f % 2 == 0 then f
    else f + 1
  }

  /** `y` is a whole number. */
  predicate IsInt(y: real)
  {
    y.Floor as real == y
  }

  /** `x` is an integer multiple of 10^-n. */
  predicate OnGrid(x: real, n: int)
  {
    IsInt(Scale(x, n))
  }

  /** The grid point `k * 10^-n`. */
  function GridPoint(k: int, n: int): (r: real)
    ensures OnGrid(r, n)
    ensures Scale(r, n) == k as real
  {
    ScaleInverse(k as real, -n);
    Scale(k as real, -n)
  }

  /** Every grid point is `GridPoint(m, n)` for the integer `m` it scales to. */
  lemma GridPointIndex(g: real, n: int) returns (m: int)
    requires OnGrid(g, n)
    ensures m as real == Scale(g, n)
    ensures GridPoint(m, n) == g
  {
    m := Scale(g, n).Floor;
    ScaleInverse(g, n);
  }

  /** `floor(x * 10^n) / 10^n`: rounds down to `n` decimals. */
  function FloorTo(x: real, n: int): (r: real)
    ensures OnGrid(r, n)
    ensures r <= x
    ensures x - r < GridStep(n)
  {
    var y := Scale(x, n);
    var k := FloorInt(y);
    ScaleInverse(x, n);
    ScaleMonotone(k as real, y, -n);
    ScaleLinear(y, k as real, -n);
    ScaleMonotone(y - k as real, 1.0, -n);
    GridPoint(k, n)
  }

  /** `ceil(x * 10^n) / 10^n`: rounds up to `n` decimals. */
  function CeilTo(x: real, n: int): (r: real)
    ensures OnGrid(r, n)
    ensures x <= r
    ensures r - x < GridStep(n)
  {
    var y := Scale(x, n);
    var k := CeilInt(y);
    ScaleInverse(x, n);
    ScaleMonotone(y, k as real, -n);
    ScaleLinear(k as real, y, -n);
    ScaleMonotone(k as real - y, 1.0, -n);
    GridPoint(k, n)
  }

  /** `round(x, n)`: the nearest multiple of 10^-n, ties to an even multiple. */
  function RoundTo(x: real, n: int): (r: real)
    ensures OnGrid(r, n)
    ensures -GridStep(n) / 2.0 <= r - x <= GridStep(n) / 2.0
  {
    var y := Scale(x, n);
    var k := RoundHalfEvenInt(y);
    ScaleInverse(x, n);
    ScaleLinear(k as real, y, -n);
    ScaleLinear(0.5, 0.5, -n);
    ScaleLinear(0.0, 0.5, -n);
    ScaleZero(-n);
    ScaleMonotone(k as real - y, 0.5, -n);
    ScaleMonotone(-0.5, k as real - y, -n);
    GridPoint(k, n)
  }

  /** Rounding a value at precision `n` in the given mode. */
  function RoundAt(mode: RoundMode, x: real, n: int): (r: real)
    ensures OnGrid(r, n)
    ensures mode == Floor ==> r <= x && x - r < GridStep(n)
    ensures mode == Ceil ==> x <= r && r - x < GridStep(n)
    ensures mode == Nearest ==> -GridStep(n) / 2.0 <= r - x <= GridStep(n) / 2.0
  {
    match mode
    case Floor => FloorTo(x, n)
    case Ceil => CeilTo(x, n)
    case Nearest => RoundTo(x, n)
  }

  /** Floor rounding returns the greatest grid point not above `x`. */
  lemma FloorToIsGreatest(x: real, n: int, g: real)
    requires OnGrid(g, n)
    requires g <= x
    ensures g <= FloorTo(x, n)
  {
    var m := GridPointIndex(g, n);
    ScaleMonotone(g, x, n);
    assert m <= FloorInt(Scale(x, n));
    ScaleMonotone(m as real, FloorInt(Scale(x, n)) as real, -n);
  }

  /** Ceil rounding returns the least grid point not below `x`. */
  lemma CeilToIsLeast(x: real, n: int, g: real)
    requires OnGrid(g, n)
    requires x <= g
    ensures CeilTo(x, n) <= g
  {
    var m := GridPointIndex(g, n);
    ScaleMonotone(x, g, n);
    assert CeilInt(Scale(x, n)) <= m;
    ScaleMonotone(CeilInt(Scale(x, n)) as real, m as real, -n);
  }

  /** Distance on the real line. */
  function Dist(a: real, b: real): real
  {
    if a <= b then b - a else a - b
  }

  /** The rounded integer is at least as close to `y` as any other integer. */
  lemma RoundHalfEvenIsNearest(y: real, m: int)
    ensures Dist(RoundHalfEvenInt(y) as real, y) <= Dist(m as real, y)
  {
    var f := y.Floor;
    var k := RoundHalfEvenInt(y);
    assert k == f || k == f + 1;
    if m <= f {
      assert Dist(m as real, y) >= y - f as real;
    } else {
      assert m >= f + 1;
      assert Dist(m as real, y) >= (f + 1) as real - y;
    }
  }

  /** Scaling multiplies distances by the same factor. */
  lemma ScaleDist(a: real, b: real, n: int)
    ensures Scale(Dist(a, b), n) == Dist(Scale(a, n), Scale(b, n))
  {
    ScaleMonotone(a, b, n);
    ScaleLinear(b, a, n);
    ScaleLinear(a, b, n);
  }

  /** Round-to-nearest returns a grid point at least as close to `x` as any other. */
  lemma RoundToIsNearest(x: real, n: int, g: real)
    requires OnGrid(g, n)
    ensures Dist(RoundTo(x, n), x) <= Dist(g, x)
  {
    var y := Scale(x, n);
    var k := RoundHalfEvenInt(y);
    var m := GridPointIndex(g, n);
    RoundHalfEvenIsNearest(y, m);
    ScaleMonotone(Dist(k as real, y), Dist(m as real, y), -n);
    ScaleDist(k as real, y, -n);
    ScaleDist(m as real, y, -n);
    ScaleInverse(x, n);
  }

  /** Grid points are fixed by every rounding mode. */
  lemma RoundAtFixesGridPoints(mode: RoundMode, g: real, n: int)
    requires OnGrid(g, n)
    ensures RoundAt(mode, g, n) == g
  {
    match mode
    case Floor =>
      FloorToIsGreatest(g, n, g);
    case Ceil =>
      CeilToIsLeast(g, n, g);
    case Nearest =>
      RoundToIsNearest(g, n, g);
  }

  /** Rounding twice is rounding once. */
  lemma RoundAtIdempotent(mode: RoundMode, x: real, n: int)
    ensures RoundAt(mode, RoundAt(mode, x, n), n) == RoundAt(mode, x, n)
  {
    RoundAtFixesGridPoints(mode, RoundAt(mode, x, n), n);
  }

  /**
    A value between two grid points stays between them after rounding in any
    mode: rounding never leaves a range whose ends are on the grid.
   */
  lemma RoundAtStaysBetweenGridPoints(mode: RoundMode, x: real, n: int, lo: real, hi: real)
    requires OnGrid(lo, n) && OnGrid(hi, n)
    requires lo <= x <= hi
    ensures lo <= RoundAt(mode, x, n) <= hi
  {
    match mode
    case Floor =>
      FloorToIsGreatest(x, n, lo);
    case Ceil =>
      CeilToIsLeast(x, n, hi);
    case Nearest =>
      RoundToIsNearest(x, n, lo);
      RoundToIsNearest(x, n, hi);
  }

  /** Python's `int(x)` on a float: truncation towards zero. */
  function TruncInt(x: real): (k: int)
    ensures 0.0 <= x ==> k as real <= x < k as real + 1.0
    ensures x < 0.0 ==> k as real - 1.0 < x <= k as real
  {
    if x >= 0.0 then x.Floor else -((-x).Floor)
  }

  /** On the grid of precision 0, i.e. on the integers, truncation changes nothing. */
  lemma TruncOfIntegralIsIdentity(x: real)
    requires OnGrid(x, 0)
    ensures TruncInt(x) as real == x
  {
    assert Scale(x, 0) == x;
  }
}
